=== FILE: README.md ===
# pydaymet request bookkeeping, in Dafny

pydaymet asks the Daymet service for daily, monthly or annual climate
grids and point series. It also derives potential evapotranspiration
(PET) from the variables it retrieves. This project models the
bookkeeping around such a request, as `pydaymet/core.py` implements it,
and proves what that bookkeeping promises:

- **Requirement checking** (`_check_requirements`, module `Requirements`).
  The check fails with exactly the required names that are absent, in the
  order they were required.
- **Request options** (`Daymet.__init__` and `check_input_validity`,
  module `Config`). The region and the time scale must each come from a
  fixed list. The variables default to all seven Daymet variables. A
  single name is treated as a one-element list. With an explicit variable
  list, asking for PET requires the daily scale and adds the five PET
  inputs; without one, `pet` is not checked and changes nothing. `Config.Daymet` is a class
  whose fields are assigned one by one as the checks pass, as the
  constructor does in the source.
- **Date arguments and the Daymet calendar** (`check_dates`,
  `dates_todict`, `years_todict`, `dates_tolist`, `years_tolist`, module
  `Periods`, on the proleptic Gregorian calendar of module `Calendar`).
  - Daymet has no December 31 in a leap year.
  - A requested year becomes the period from January 1 to its last kept
    day, which is always 365 days long.
  - A date range becomes one (first, last) pair per calendar year that
    still has a kept day.
  - `years_tolist` joins the years into one comma-separated string and
    splits it again. It is modelled as a loop over those fields, with the
    decimal printing and parsing it relies on (module `DecimalText`).
- **PET column names** (`pet_bycoords`, module `PetColumns`).
  - The `alt_unit` flag chooses between two unit labels in the required
    column names.
  - The computation adds a mean-temperature column and a PET column to
    the caller's table in place. It returns a copy without the
    mean-temperature column.
  - A table is modelled by its column names (`PetColumns.Frame`).

Errors the source raises are values of `Errors.Error`, one constructor
per exception class. `Errors.Error.UnparsableDate` and
`Errors.Error.InvalidLiteral` stand for the pandas parse error and the
`ValueError` of `int()`.

The docstring of `pet_bycoords` (`pydaymet/core.py:233-234`) promises the
input table with one additional `pet (mm/day)` column. The code does more.
It also drops a `tmean (deg c)` column that the caller's table already had
(line 314). It overwrites a `pet (mm/day)` column that was already there
(line 308). The model follows the code (`PetColumns.PetOutputSpec`).

## Model

| member | source | states |
|---|---|---|
| Requirements.Missing | pydaymet/core.py:428 | the missing list holds exactly the required names that are not present, and is no longer than the requirements |
| Requirements.CheckRequirements | pydaymet/core.py:415-430 | passes iff every required name is present; otherwise fails with MissingItems carrying the non-empty `Missing` list: exactly the absent names, in required order, repetitions kept |
| Requirements.MissingConcat | pydaymet/core.py:428 | the missing names of `a + b` are those of `a` followed by those of `b`, so required order is kept |
| Requirements.MissingCount | pydaymet/core.py:428 | an absent name is reported as often as it was required; a present one never |
| Requirements.NothingPresent | pydaymet/core.py:428-430 | with no columns present, every requirement is reported, in order |
| Config.CheckInputValidity | pydaymet/core.py:104-109 | accepted iff the input is a valid option; the result is the input itself; the error is InvalidInputValue naming the input and the options |
| Config.Configure | pydaymet/core.py:39-102 | accepted iff region and scale are valid and, when variables are given, they are all valid and PET comes with the daily scale; the four checks run in source order with their errors; units are the Daymet table; no list selects all seven; a list is kept as given without PET; with PET it is the duplicate-free union with the five PET inputs; the selection is always valid |
| Config.SingleNameIsList | pydaymet/core.py:91 | a single name configures exactly like the one-element list holding it |
| Config.TimeScalesHaveCodes | pydaymet/core.py:49-50 | the accepted time scales are exactly the keys of the product-code table |
| Config.Daymet.constructor | pydaymet/core.py:39-45 | a new object holds empty settings |
| Config.Daymet.Create | pydaymet/core.py:39-102 | fails iff `Configure` fails, with the same error; on success returns a fresh object whose fields are `Configure`'s settings |
| Periods.CheckDates | pydaymet/core.py:111-122 | passes iff the argument is a tuple of length two, a list or an int; the other two cases fail with the source's InvalidInputType arguments |
| Periods.DatesToDict | pydaymet/core.py:124-139 | accepted iff a 2-tuple of real dates that both lie in pandas' timestamp range (1677-09-22 to 2262-04-11) and whose start is not before 1980-01-01 (the source checks no upper bound of its own); the dict has keys start and end holding the two dates; wrong shape, an unparsable start, then an unparsable end, then an early start give the source's errors in that order |
| Periods.YearsToDict | pydaymet/core.py:141-145 | the dict has the single key "years" |
| Periods.YearsRoundTrip | pydaymet/core.py:141-145 | splitting the joined string on commas and parsing each field gives back the years in order, one field per year; an empty list gives the single field "" |
| Periods.PeriodsOfFields | pydaymet/core.py:194-203 | succeeds iff every field is an integer literal of a year from 1678 to 2261; then one pair per field, each January 1 to the year's last kept day; otherwise fails with the `FieldError` of the first field that has one |
| Periods.YearError | pydaymet/core.py:197-202 | a year fails iff it lies outside 1678 to 2261, and the error names its January 1 when that does not parse, otherwise its last kept day |
| Periods.FieldError | pydaymet/core.py:196-202 | a field fails iff it is no integer literal (InvalidLiteral) or its year fails (`YearError`) |
| Periods.FieldsAreYears | pydaymet/core.py:194-199 | the fields looped over are the requested years, one per year, each failing exactly as its year does; an empty list gives the one field `""`, which is no integer |
| Periods.YearsToList | pydaymet/core.py:176-203 | a non-empty list succeeds iff every year lies from 1678 to 2261, giving one period per year in the order given, each `YearPeriod` of that year; otherwise it fails with the `YearError` of the first such year in the list; an empty list fails (reported as `InvalidLiteral("")`) |
| Periods.TimestampYearSpec | pydaymet/core.py:197-202 | the years 1678 to 2261 are exactly those whose January 1 and last kept day both parse as pandas timestamps |
| Periods.YearPeriodSpec | pydaymet/core.py:197-202 | each year period starts and ends in that year, spans 365 days and holds exactly the year's days other than a leap-year December 31 |
| Periods.KeptDays | pydaymet/core.py:170-172 | keeps exactly the days that are not a leap-year December 31, and keeps them sorted |
| Periods.OfYear | pydaymet/core.py:173 | keeps exactly the days of the given year, and keeps them sorted |
| Periods.UniqueYears | pydaymet/core.py:173 | every listed year has at least one day |
| Periods.YearBounds | pydaymet/core.py:173-174 | one pair per distinct year |
| Periods.DistinctOfSorted | pydaymet/core.py:173 | the distinct years of a sorted list strictly increase |
| Periods.YearBoundsSpec | pydaymet/core.py:173-174 | for sorted days: each pair lies in one year, first no later than last, both drawn from the days; years strictly increase; every day lies in its year's pair |
| Periods.DatesToList | pydaymet/core.py:147-174 | accepted iff `dates_todict` accepts, failing with its error otherwise |
| Periods.DatesToListSpec | pydaymet/core.py:147-174 | for a range of parsable dates starting no earlier than 1980, the pairs are in one year each, ordered, made of kept days of the range, in strictly increasing years, and every kept day of the range lies in its year's pair |
| Periods.FullYearPeriods | pydaymet/core.py:147-174 | the only Daymet period list for a whole calendar year is that year's single period |
| Periods.FullYearAgrees | pydaymet/core.py:147-203 | for each year from 1980 to 2261, a whole year requested by dates gives the same single period as requested by year |
| Calendar.DaysInMonth | pydaymet/core.py:169 | 28 to 31 days; 29 exactly for February of a leap year |
| Calendar.DaysBeforeMonth | pydaymet/core.py:169 | no days before January; 334 or 335 before December |
| Calendar.DayOfYear | pydaymet/core.py:169 | between 1 and the year's length |
| Calendar.Next | pydaymet/core.py:169 | the next day is valid and later; within a year it is the next day of the year, otherwise December 31 is followed by January 1 |
| Calendar.NextIsImmediate | pydaymet/core.py:169 | no valid date lies strictly between a day and the next |
| Calendar.DaysMembers | pydaymet/core.py:169 | `date_range(start, end)` holds exactly the valid dates from start to end |
| Calendar.DaysSorted | pydaymet/core.py:169 | the range is strictly increasing |
| Calendar.DaysLength | pydaymet/core.py:169 | within one year the range has end-day minus start-day plus one days |
| DecimalText.IntRoundTrip | pydaymet/core.py:145 | parsing the decimal text of an integer gives it back |
| DecimalText.SplitJoin | pydaymet/core.py:145 | splitting the comma-joined list of comma-free strings gives back the list |
| DecimalText.ParseInt | pydaymet/core.py:199 | the empty string is not an integer literal |
| Seqs.Without | pydaymet/core.py:314 | removes exactly the given element |
| Seqs.Distinct | pydaymet/core.py:102 | same elements, no repetitions |
| PetColumns.RequiredColumns | pydaymet/core.py:236-249 | the exact five required names for each `alt_unit`; neither the mean-temperature nor the PET column is required |
| PetColumns.WithColumn | pydaymet/core.py:254 | assigning a column gives exactly the old columns plus it |
| PetColumns.PetOutputSpec | pydaymet/core.py:254-314 | the output keeps the input's columns in order minus `tmean (deg c)`, then `pet (mm/day)` unless already present; as a set, input plus PET minus mean temperature |
| PetColumns.RequiredColumnsKept | pydaymet/core.py:252-314 | once the check passes, every required column is in the output |
| PetColumns.Frame.constructor | pydaymet/core.py:206-211 | a table holds the columns it is built with |
| PetColumns.Frame.Assign | pydaymet/core.py:254 | assigning a column adds it unless present |
| PetColumns.Frame.Drop | pydaymet/core.py:314 | dropping a column that is present returns a new table without that column and leaves this one as it is |
| PetColumns.PetByCoords | pydaymet/core.py:206-314 | missing columns fail with MissingItems and leave the table as it was; an elevation failure (line 265) or a failure of the arithmetic after it (lines 271-311) propagates after the mean-temperature column was added; otherwise the caller's table gains both columns and the result is a fresh table with `PetOutputColumns` |

## Left out

- The FAO-56 Penman-Monteith arithmetic of `pet_bycoords` and `pet_bygrid`
  (`pydaymet/core.py:254-312`, `343-408`) is floating point with exp, tan,
  arccos and powers. Only the column names are modelled.
- PetColumns.Frame.Assign: the vapour-pressure rescale to kPa and back
  (`pydaymet/core.py:271`, `312`) changes values only, so both steps are
  name no-ops.
- `pet_bygrid` is not part of this model. Its result depends on xarray
  merge, `where(..., drop=True)` and the time-axis swap.
- PetColumns.PetByCoords: `py3dep.elevation_bycoords` is a network service.
  It is reduced to an `Outcome` parameter, so only its failure is modelled,
  not the elevation value. The `coords` and `crs` arguments are dropped with
  it. `print(clm_df.columns)` is left out.
- PetColumns.PetByCoords: whether the arithmetic of lines 271-311 raises
  depends on the table's values and index, which are not modelled. That
  covers an index that is not a datetime index (line 280) and values that
  are not numbers. It is a second `Outcome` parameter, `formula`. When it
  fails, the caller's table keeps the added `tmean (deg c)` column and its
  `vp (Pa)` values stay rescaled to kPa (line 271); only the first is
  visible in the model. Non-numeric temperatures, which raise at lines
  254-264 before or while `tmean (deg c)` is added, are not modelled.
- Periods.DatesToDict: dates arrive as (year, month, day) values. Parsing
  date strings is pandas' and not modelled. The model only rejects a day
  that does not exist, or that a nanosecond timestamp cannot hold (before
  1677-09-22 or after 2262-04-11), as `UnparsableDate`, checking the start
  before the end (lines 130-131). The 12:00 `DateOffset` and the `strftime` formatting
  are left out, so periods are pairs of calendar days.
- Periods.YearsToList: for an empty list the field is `""`. The source then
  fails at line 197, where pandas is asked to parse `"0101"`, or failing
  that at line 199 on `int("")`. The model reports `InvalidLiteral("")`
  either way and does not model how pandas reads `"0101"`.
- DecimalText.ParseInt accepts an optional minus sign followed by decimal
  digits. That is enough for `str()` output. It does not model `int()`'s
  whitespace, `+` sign or underscores.
- Config.Configure: with PET, Python builds the selection as
  `list(set(...))`, whose order is unspecified. The model fixes one order:
  the PET inputs first, then the other requested names, each once. The
  contract states only membership and the absence of repetitions.
- Config.Configure: the `vars_table` DataFrame is reduced to the seven
  abbreviations and the unit map it yields. The product codes
  (`TimeCodes`) are kept only as the set of accepted time scales.
- Config.Configure: a `variables` argument that is neither a string nor a
  list is not modelled.
- The non-iterable branch of `_check_requirements`
  (`pydaymet/core.py:425-426`) cannot arise with typed sequences.
- `pydaymet/__init__.py` checks library versions and re-exports names. It
  is not part of this model.

=== FILE: calendar.dfy ===
/** Proleptic Gregorian calendar days, the only part of pandas' timestamps
    the Daymet period bookkeeping depends on. */
module Calendar {

  datatype Date = Date(year: int, month: int, day: int)

  /** The Gregorian leap-year rule: divisible by 4, and either not by 100 or
      by 400. With a positive divisor Dafny's `%` agrees with Python's. */
  predicate IsLeapYear(y: int) {
    y % 4 == 0 && (y % 100 != 0 || y % 400 == 0)
  }

  function DaysInMonth(y: int, m: int): (n: int)
    requires 1 <= m <= 12
    ensures 28 <= n <= 31
    ensures n == 29 <==> m == 2 && IsLeapYear(y)
  {
    if m == 2 then (if IsLeapYear(y) then 29 else 28)
    else if m == 4 || m == 6 || m == 9 || m == 11 then 30
    else 31
  }

  /** Days of the year `y` that come before the first of month `m`. */
  function DaysBeforeMonth(y: int, m: int): (n: int)
    requires 1 <= m <= 12
    ensures m == 1 ==> n == 0
    ensures m == 12 ==> n == 334 + (if IsLeapYear(y) then 1 else 0)
  {
    var leap := if IsLeapYear(y) then 1 else 0;
    match m
    case 1 => 0
    case 2 => 31
    case 3 => 59 + leap
    case 4 => 90 + leap
    case 5 => 120 + leap
    case 6 => 151 + leap
    case 7 => 181 + leap
    case 8 => 212 + leap
    case 9 => 243 + leap
    case 10 => 273 + leap
    case 11 => 304 + leap
    case _ => 334 + leap
  }

  lemma DaysBeforeNextMonth(y: int, m: int)
    requires 1 <= m <= 12
    ensures m < 12 ==> DaysBeforeMonth(y, m + 1) == DaysBeforeMonth(y, m) + DaysInMonth(y, m)
  {
  }

  /** A real calendar day: a real month and a real day of it. Which of these
      a pandas timestamp can hold is `Periods.Parses`. */
  predicate Valid(d: Date) {
    1 <= d.month <= 12 && 1 <= d.day <= DaysInMonth(d.year, d.month)
  }

  /** Position of the day within its year, 1 for January 1. */
  function DayOfYear(d: Date): (n: int)
    requires Valid(d)
    ensures 1 <= n <= (if IsLeapYear(d.year) then 366 else 365)
  {
    DaysBeforeMonth(d.year, d.month) + d.day
  }

  /** Chronological order. */
  predicate Less(a: Date, b: Date) {
    a.year < b.year ||
    (a.year == b.year && (a.month < b.month || (a.month == b.month && a.day < b.day)))
  }

  predicate LessEq(a: Date, b: Date) {
    a == b || Less(a, b)
  }

  /** The calendar day after `d`. */
  function Next(d: Date): (n: Date)
    requires Valid(d)
    ensures Valid(n) && Less(d, n)
    ensures n.year == d.year ==> DayOfYear(n) == DayOfYear(d) + 1
    ensures n.year != d.year ==> n == Date(d.year + 1, 1, 1) && d.month == 12 && d.day == 31
  {
    DaysBeforeNextMonth(d.year, d.month);
    if d.day < DaysInMonth(d.year, d.month) then Date(d.year, d.month, d.day + 1)
    else if d.month < 12 then Date(d.year, d.month + 1, 1)
    else Date(d.year + 1, 1, 1)
  }

  /** No valid date lies strictly between a day and the next. */
  lemma NextIsImmediate(d: Date, x: Date)
    requires Valid(d) && Valid(x) && Less(d, x)
    ensures LessEq(Next(d), x)
  {
  }

  /** All the days from `start` to `end`, both included, in order; empty when
      `end` comes before `start` (pandas' `date_range(start, end)`). */
  function Days(start: Date, end: Date): (ds: seq<Date>)
    requires Valid(start) && Valid(end)
    decreases end.year - start.year, 12 - start.month, 32 - start.day
  {
    if Less(end, start) then [] else [start] + Days(Next(start), end)
  }

  predicate StrictlySorted(ds: seq<Date>) {
    forall i, j :: 0 <= i < j < |ds| ==> Less(ds[i], ds[j])
  }

  /** The range holds exactly the valid days between its ends. */
  lemma {:induction false} DaysMembers(start: Date, end: Date)
    requires Valid(start) && Valid(end)
    ensures forall x :: x in Days(start, end) <==> Valid(x) && LessEq(start, x) && LessEq(x, end)
    decreases end.year - start.year, 12 - start.month, 32 - start.day
  {
    if !Less(end, start) {
      DaysMembers(Next(start), end);
      forall x | Valid(x) && Less(start, x)
        ensures LessEq(Next(start), x)
      {
        NextIsImmediate(start, x);
      }
    }
  }

  /** A day before every day of a sorted list can be put in front of it. */
  lemma SortedCons(x: Date, rest: seq<Date>)
    requires StrictlySorted(rest)
    requires forall d :: d in rest ==> Less(x, d)
    ensures StrictlySorted([x] + rest)
  {
    var ds := [x] + rest;
    forall i, j | 0 <= i < j < |ds|
      ensures Less(ds[i], ds[j])
    {
      assert ds[j] == rest[j - 1] && rest[j - 1] in rest;
      if i > 0 {
        assert ds[i] == rest[i - 1];
      }
    }
  }

  /** The range is in strictly increasing order. */
  lemma {:induction false} DaysSorted(start: Date, end: Date)
    requires Valid(start) && Valid(end)
    ensures StrictlySorted(Days(start, end))
    decreases end.year - start.year, 12 - start.month, 32 - start.day
  {
    if !Less(end, start) {
      var next := Next(start);
      var rest := Days(next, end);
      DaysSorted(next, end);
      DaysMembers(next, end);
      forall d | d in rest
        ensures Less(start, d)
      {
        assert LessEq(next, d);
      }
      SortedCons(start, rest);
    }
  }

  /** Within one year, the range has one element per day of the year it
      spans. */
  lemma {:induction false} DaysLength(start: Date, end: Date)
    requires Valid(start) && Valid(end)
    requires start.year == end.year && LessEq(start, end)
    ensures |Days(start, end)| == DayOfYear(end) - DayOfYear(start) + 1
    decreases end.year - start.year, 12 - start.month, 32 - start.day
  {
    if start == end {
      assert Less(end, Next(start));
    } else {
      DaysLength(Next(start), end);
    }
  }
}

=== FILE: config.dfy ===
/** The options of a Daymet request, validated when a `Daymet` object is
    created (`Daymet.__init__`, `check_input_validity`). */
module Config {
  import opened Errors
  import Seqs

  const ValidRegions: seq<string> := ["na", "hi", "pr"]

  /** Each time scale with the Daymet product code that serves it. */
  const TimeCodes: map<string, int> := map["daily" := 1840, "monthly" := 1855, "annual" := 1852]

  /** The time scales in the order of `TimeCodes`' keys. */
  const TimeScales: seq<string> := ["daily", "monthly", "annual"]

  /** The abbreviations of the seven Daymet variables. */
  const ValidVariables: seq<string> := ["dayl", "prcp", "srad", "swe", "tmax", "tmin", "vp"]

  const Units: map<string, string> := map[
    "dayl" := "s/day", "prcp" := "mm/day", "srad" := "W/m2", "swe" := "kg/m2",
    "tmax" := "degrees C", "tmin" := "degrees C", "vp" := "Pa"]

  /** The variables the evapotranspiration formula reads. */
  const PetInputs: seq<string> := ["tmin", "tmax", "vp", "srad", "dayl"]

  const PetScaleMessage := "PET can only be computed at daily scale i.e., time_scale must be daily."

  /** The `variables` argument when given: one name or a list of names. */
  datatype VariablesArg = Name(name: string) | Names(names: seq<string>)

  /** A single name stands for a one-element list. */
  function Requested(v: VariablesArg): seq<string> {
    match v
    case Name(n) => [n]
    case Names(ns) => ns
  }

  predicate SubsetOf(a: seq<string>, b: seq<string>) {
    forall x :: x in a ==> x in b
  }

  /** The state a successfully created `Daymet` object holds. */
  datatype Settings = Settings(region: string, timeScale: string, units: map<string, string>, variables: seq<string>)

  /** The input itself when it is one of the valid options, an
      InvalidInputValue error naming it and the options otherwise. */
  function CheckInputValidity(inp: string, valid: seq<string>): (r: Result<string>)
    ensures r.Ok? <==> inp in valid
    ensures r.Ok? ==> r.value == inp
    ensures r.Err? ==> r.error == InvalidInputValue(inp, valid)
  {
    if inp !in valid then Err(InvalidInputValue(inp, valid)) else Ok(inp)
  }

  /** The settings a `Daymet(variables, pet, time_scale, region)` call
      produces, or the error it raises. */
  function Configure(variables: Option<VariablesArg>, pet: bool, timeScale: string, region: string): (r: Result<Settings>)
    // Accepted exactly when the region and the time scale are valid and, if
    // variables are given, they are all valid and PET asks for daily data.
    ensures r.Ok? <==>
      region in ValidRegions && timeScale in TimeScales &&
      (variables.Some? ==> SubsetOf(Requested(variables.value), ValidVariables) && (pet ==> timeScale == "daily"))
    // The checks run in this order: region, time scale, variables, PET scale.
    ensures region !in ValidRegions ==> r == Err(InvalidInputValue(region, ValidRegions))
    ensures region in ValidRegions && timeScale !in TimeScales ==>
      r == Err(InvalidInputValue(timeScale, TimeScales))
    ensures (region in ValidRegions && timeScale in TimeScales && variables.Some? &&
             !SubsetOf(Requested(variables.value), ValidVariables)) ==>
      r == Err(InvalidInputValue("variables", ValidVariables))
    ensures (region in ValidRegions && timeScale in TimeScales && variables.Some? &&
             SubsetOf(Requested(variables.value), ValidVariables) && pet && timeScale != "daily") ==>
      r == Err(InvalidInputRange(PetScaleMessage))
    ensures r.Ok? ==> r.value.region == region && r.value.timeScale == timeScale && r.value.units == Units
    ensures r.Ok? ==> SubsetOf(r.value.variables, ValidVariables)
    // Without a list all seven variables are selected, whatever `pet` says.
    ensures r.Ok? && variables.None? ==> r.value.variables == ValidVariables
    // A given list is kept as it is without PET ...
    ensures r.Ok? && variables.Some? && !pet ==> r.value.variables == Requested(variables.value)
    // ... and widened to the PET inputs, without repetitions, with it.
    ensures r.Ok? && variables.Some? && pet ==>
      Seqs.NoDuplicates(r.value.variables) &&
      forall v :: v in r.value.variables <==> v in PetInputs || v in Requested(variables.value)
  {
    var reg :- CheckInputValidity(region, ValidRegions);
    var scale :- CheckInputValidity(timeScale, TimeScales);
    if variables.None? then Ok(Settings(reg, scale, Units, ValidVariables))
    else
      var given := Requested(variables.value);
      if !SubsetOf(given, ValidVariables) then Err(InvalidInputValue("variables", ValidVariables))
      else if !pet then Ok(Settings(reg, scale, Units, given))
      else if timeScale != "daily" then Err(InvalidInputRange(PetScaleMessage))
      else Ok(Settings(reg, scale, Units, Seqs.Distinct(PetInputs + given)))
  }

  /** A single name is treated exactly like the list holding only it. */
  lemma SingleNameIsList(n: string, pet: bool, timeScale: string, region: string)
    ensures Configure(Some(Name(n)), pet, timeScale, region) == Configure(Some(Names([n])), pet, timeScale, region)
  {
  }

  /** The time scales checked are exactly those with a product code. */
  lemma TimeScalesHaveCodes()
    ensures forall s :: s in TimeScales <==> s in TimeCodes
  {
  }

  /** A Daymet request: the region, time scale, units and variables it asks
      for. */
  class Daymet {
    var region: string
    var timeScale: string
    var units: map<string, string>
    var variables: seq<string>

    function Current(): Settings
      reads this
    {
      Settings(region, timeScale, units, variables)
    }

    constructor ()
      ensures Current() == Settings("", "", map[], [])
    {
      region, timeScale, units, variables := "", "", map[], [];
    }

    /** `Daymet(variables, pet, time_scale, region)`: assigns the fields one
        by one as they are validated, the PET inputs last. */
    static method Create(variables: Option<VariablesArg>, pet: bool, timeScale: string, region: string)
      returns (r: Result<Daymet>)
      ensures r.Ok? <==> Configure(variables, pet, timeScale, region).Ok?
      ensures r.Err? ==> r.error == Configure(variables, pet, timeScale, region).error
      ensures r.Ok? ==> fresh(r.value) && r.value.Current() == Configure(variables, pet, timeScale, region).value
    {
      var d := new Daymet();
      d.region :- CheckInputValidity(region, ValidRegions);
      d.timeScale :- CheckInputValidity(timeScale, TimeScales);
      d.units := Units;
      if variables.None? {
        d.variables := ValidVariables;
      } else {
        d.variables := Requested(variables.value);
        if !SubsetOf(d.variables, ValidVariables) {
          return Err(InvalidInputValue("variables", ValidVariables));
        }
        if pet {
          if timeScale != "daily" {
            return Err(InvalidInputRange(PetScaleMessage));
          }
          d.variables := Seqs.Distinct(PetInputs + d.variables);
        }
      }
      return Ok(d);
    }
  }
}

=== FILE: decimal_text.dfy ===
/** Decimal spelling of integers and comma-separated lists, as Python's
    `str(int)`, `int(str)`, `",".join` and `str.split(",")` behave on them. */
module DecimalText {
  import opened Errors

  predicate IsDigit(c: char) { '0' <= c <= '9' }

  function DigitChar(n: int): (c: char)
    requires 0 <= n < 10
    ensures IsDigit(c)
  {
    "0123456789"[n]
  }

  function DigitValue(c: char): (n: int)
    requires IsDigit(c)
    ensures 0 <= n < 10
  {
    (c as int) - ('0' as int)
  }

  /** `str(n)` for a non-negative `n`: no leading zeros. */
  function NatToString(n: nat): (s: string)
    ensures |s| >= 1 && forall i :: 0 <= i < |s| ==> IsDigit(s[i])
  {
    if n < 10 then [DigitChar(n)] else NatToString(n / 10) + [DigitChar(n % 10)]
  }

  /** `str(n)`: a minus sign before the digits of a negative number. */
  function IntToString(n: int): (s: string)
    ensures ',' !in s
  {
    if n < 0 then "-" + NatToString(-n) else NatToString(n)
  }

  /** The value of a non-empty run of decimal digits. */
  function DigitsValue(s: string): (n: nat)
    requires forall i :: 0 <= i < |s| ==> IsDigit(s[i])
  {
    if s == [] then 0 else 10 * DigitsValue(s[..|s| - 1]) + DigitValue(s[|s| - 1])
  }

  /** `int(s)`: an optional minus sign followed by at least one digit; any
      other text is an invalid literal (None). */
  function ParseInt(s: string): (r: Option<int>)
    ensures s == [] ==> r.None?
  {
    if |s| >= 1 && s[0] == '-' then
      var digits := s[1..];
      if digits != [] && forall i :: 0 <= i < |digits| ==> IsDigit(digits[i])
      then Some(-(DigitsValue(digits) as int)) else None
    else if s != [] && forall i :: 0 <= i < |s| ==> IsDigit(s[i])
    then Some(DigitsValue(s)) else None
  }

  lemma {:induction false} DigitsRoundTrip(n: nat)
    ensures DigitsValue(NatToString(n)) == n
  {
    if n >= 10 {
      var s := NatToString(n);
      assert s[..|s| - 1] == NatToString(n / 10);
      DigitsRoundTrip(n / 10);
    }
  }

  /** `int(str(n)) == n` for every integer. */
  lemma IntRoundTrip(n: int)
    ensures ParseInt(IntToString(n)) == Some(n)
  {
    DigitsRoundTrip(if n < 0 then -n else n);
    if n < 0 {
      assert IntToString(n)[1..] == NatToString(-n);
    }
  }

  /** `sep.join(parts)` with the comma separator. */
  function Join(parts: seq<string>): (s: string)
  {
    if |parts| == 0 then ""
    else if |parts| == 1 then parts[0]
    else Join(parts[..|parts| - 1]) + "," + parts[|parts| - 1]
  }

  /** `s.split(",")`: always at least one field, the empty string giving one
      empty field. */
  function Split(s: string): (fields: seq<string>)
    ensures |fields| >= 1
  {
    if s == [] then [""]
    else
      var fields := Split(s[..|s| - 1]);
      var c := s[|s| - 1];
      if c == ',' then fields + [""]
      else fields[..|fields| - 1] + [fields[|fields| - 1] + [c]]
  }

  /** Appending a comma and a comma-free field to a text appends that field
      to its split. */
  lemma {:induction false} SplitAppend(t: string, x: string)
    requires ',' !in x
    ensures Split(t + "," + x) == Split(t) + [x]
  {
    if x == [] {
      assert t + "," + x == t + ",";
      assert (t + ",")[..|t + ","| - 1] == t;
    } else {
      var x' := x[..|x| - 1];
      SplitAppend(t, x');
      var s := t + "," + x;
      assert s[..|s| - 1] == t + "," + x';
      assert x' + [x[|x| - 1]] == x;
    }
  }

  /** A field without commas splits to itself. */
  lemma {:induction false} SplitPlain(x: string)
    requires ',' !in x
    ensures Split(x) == [x]
  {
    if x != [] {
      var x' := x[..|x| - 1];
      SplitPlain(x');
      assert x' + [x[|x| - 1]] == x;
    }
  }

  /** Joining comma-free fields with commas and splitting on commas gives the
      fields back, provided there is at least one. */
  lemma {:induction false} SplitJoin(parts: seq<string>)
    requires |parts| >= 1
    requires forall i :: 0 <= i < |parts| ==> ',' !in parts[i]
    ensures Split(Join(parts)) == parts
  {
    if |parts| == 1 {
      SplitPlain(parts[0]);
    } else {
      var init := parts[..|parts| - 1];
      SplitJoin(init);
      SplitAppend(Join(init), parts[|parts| - 1]);
      assert init + [parts[|parts| - 1]] == parts;
    }
  }
}

=== FILE: errors.dfy ===
/** The exceptions the Daymet request code raises, and the failure-compatible
    wrappers the rest of the model returns instead of raising them. */
module Errors {

  /** One constructor per exception kind. The package's own exception classes
      (MissingItems, InvalidInputValue, InvalidInputType, InvalidInputRange)
      keep the arguments they are raised with; the other two stand for errors
      raised by the libraries the code calls (Python's int() and pandas'
      date parser). */
  datatype Error =
    | MissingItems(items: seq<string>)
    | InvalidInputValue(name: string, validOptions: seq<string>)
    | InvalidInputType(args: seq<string>)
    | InvalidInputRange(message: string)
    | InvalidLiteral(text: string)
    | UnparsableDate(year: int, month: int, day: int)

  datatype Option<+T> = None | Some(value: T)

  /** A value, or the exception that was raised instead of returning it. */
  datatype Result<+T> = Ok(value: T) | Err(error: Error) {
    predicate IsFailure() { Err? }

    function PropagateFailure<U>(): Result<U>
      requires Err?
    {
      Err(error)
    }

    function Extract(): T
      requires Ok?
    {
      value
    }
  }

  /** The outcome of a check that returns nothing when it passes. */
  datatype Outcome = Pass | Fail(error: Error) {
    predicate IsFailure() { Fail? }

    function PropagateFailure<U>(): Result<U>
      requires Fail?
    {
      Err(error)
    }
  }
}

=== FILE: periods.dfy ===
/** The date arguments of a Daymet request and their correction for the
    Daymet calendar, which drops December 31 of every leap year
    (`check_dates`, `dates_todict`, `years_todict`, `dates_tolist`,
    `years_tolist`). */
module Periods {
  import opened Errors
  import opened Calendar
  import opened DecimalText
  import Seqs

  /** The shapes the `dates` argument can take: a tuple (of date strings, here
      the dates they spell), a list of years, a single year, or anything
      else. */
  datatype DatesArg =
    | TupleArg(items: seq<Date>)
    | ListArg(years: seq<int>)
    | IntArg(year: int)
    | OtherArg

  /** The `years` argument: one year or a list of them. */
  datatype YearsArg = Year(year: int) | Years(years: seq<int>)

  /** The earliest day of the Daymet record. */
  const FirstDay := Date(1980, 1, 1)

  /** The first and last whole days a pandas timestamp (nanoseconds since
      1970 in a signed 64-bit count) can hold. */
  const EarliestTimestampDay := Date(1677, 9, 22)
  const LatestTimestampDay := Date(2262, 4, 11)

  /** `pd.to_datetime` accepts the day: it exists and a timestamp holds it. */
  predicate Parses(d: Date) {
    Valid(d) && LessEq(EarliestTimestampDay, d) && LessEq(d, LatestTimestampDay)
  }

  /** The years whose January 1 and last kept day both parse. */
  predicate TimestampYear(y: int) {
    1678 <= y <= 2261
  }

  /** `TimestampYear` is exactly the set of years for which both ends of the
      year period parse. */
  lemma TimestampYearSpec(y: int)
    ensures TimestampYear(y) <==> Parses(Date(y, 1, 1)) && Parses(YearEnd(y))
  {
  }

  /** The error `years_tolist` raises for year `y`, if any: January 1 is
      parsed first, the year's last kept day second. */
  function YearError(y: int): (e: Option<Error>)
    ensures e.None? <==> TimestampYear(y)
    ensures e.Some? ==> e.value.UnparsableDate? && e.value.year == y
  {
    if !Parses(Date(y, 1, 1)) then Some(UnparsableDate(y, 1, 1))
    else if !Parses(YearEnd(y)) then Some(UnparsableDate(y, 12, YearEnd(y).day))
    else None
  }

  /** The error `years_tolist` raises for one comma-separated field, if any. */
  function FieldError(field: string): (e: Option<Error>)
    ensures e.None? <==> ParseInt(field).Some? && TimestampYear(ParseInt(field).value)
  {
    match ParseInt(field)
    case None => Some(InvalidLiteral(field))
    case Some(y) => YearError(y)
  }

  /** Passes for a pair of dates, a list of years or a single year. */
  function CheckDates(dates: DatesArg): (r: Outcome)
    ensures r.Pass? <==> !dates.OtherArg? && (dates.TupleArg? ==> |dates.items| == 2)
    ensures dates.OtherArg? ==>
      r == Fail(InvalidInputType(["dates", "tuple, list, or int", "(start, end), year, or [years, ...]"]))
    ensures dates.TupleArg? && |dates.items| != 2 ==>
      r == Fail(InvalidInputType(["dates", "Start and end should be passed as a tuple of length 2."]))
  {
    if dates.OtherArg? then
      Fail(InvalidInputType(["dates", "tuple, list, or int", "(start, end), year, or [years, ...]"]))
    else if dates.TupleArg? && |dates.items| != 2 then
      Fail(InvalidInputType(["dates", "Start and end should be passed as a tuple of length 2."]))
    else Pass
  }

  /** The request's start and end dates. Both must parse as timestamps, start
      first; of the record itself only the lower bound is checked, and an end
      before the start is accepted. */
  function DatesToDict(dates: DatesArg): (r: Result<map<string, Date>>)
    ensures r.Ok? <==>
      dates.TupleArg? && |dates.items| == 2 &&
      Parses(dates.items[0]) && Parses(dates.items[1]) && !Less(dates.items[0], FirstDay)
    ensures r.Ok? ==>
      r.value.Keys == {"start", "end"} && r.value["start"] == dates.items[0] && r.value["end"] == dates.items[1]
    ensures !(dates.TupleArg? && |dates.items| == 2) ==>
      r == Err(InvalidInputType(["dates", "tuple", "(start, end)"]))
    ensures dates.TupleArg? && |dates.items| == 2 && !Parses(dates.items[0]) ==>
      r == Err(UnparsableDate(dates.items[0].year, dates.items[0].month, dates.items[0].day))
    ensures dates.TupleArg? && |dates.items| == 2 && Parses(dates.items[0]) && !Parses(dates.items[1]) ==>
      r == Err(UnparsableDate(dates.items[1].year, dates.items[1].month, dates.items[1].day))
    ensures (dates.TupleArg? && |dates.items| == 2 && Parses(dates.items[0]) && Parses(dates.items[1]) &&
             Less(dates.items[0], FirstDay)) ==>
      r == Err(InvalidInputRange("Daymet database ranges from 1980 to 2019."))
  {
    if !dates.TupleArg? || |dates.items| != 2 then
      Err(InvalidInputType(["dates", "tuple", "(start, end)"]))
    else
      var start := dates.items[0];
      var end := dates.items[1];
      if !Parses(start) then Err(UnparsableDate(start.year, start.month, start.day))
      else if !Parses(end) then Err(UnparsableDate(end.year, end.month, end.day))
      else if Less(start, FirstDay) then Err(InvalidInputRange("Daymet database ranges from 1980 to 2019."))
      else Ok(map["start" := start, "end" := end])
  }

  /** A single year stands for a one-element list. */
  function YearList(years: YearsArg): seq<int> {
    match years
    case Year(y) => [y]
    case Years(ys) => ys
  }

  /** `str(y) for y in years`. */
  function YearStrings(ys: seq<int>): seq<string> {
    seq(|ys|, i requires 0 <= i < |ys| => IntToString(ys[i]))
  }

  /** The years as one comma-separated string under the key "years". */
  function YearsToDict(years: YearsArg): (dict: map<string, string>)
    ensures dict.Keys == {"years"}
  {
    map["years" := Join(YearStrings(YearList(years)))]
  }

  /** Splitting the joined string and reading each field back as an integer
      gives the years in the order given, one field per year; an empty list
      instead splits into a single empty field. */
  lemma YearsRoundTrip(years: YearsArg)
    ensures var fields := Split(YearsToDict(years)["years"]);
      var ys := YearList(years);
      (ys == [] ==> fields == [""]) &&
      (ys != [] ==> |fields| == |ys| && forall i :: 0 <= i < |ys| ==> ParseInt(fields[i]) == Some(ys[i]))
  {
    var ys := YearList(years);
    if ys != [] {
      SplitJoin(YearStrings(ys));
      forall i | 0 <= i < |ys|
        ensures ParseInt(IntToString(ys[i])) == Some(ys[i])
      {
        IntRoundTrip(ys[i]);
      }
    }
  }

  /** The last day Daymet keeps in year `y`. */
  function YearEnd(y: int): Date {
    if IsLeapYear(y) then Date(y, 12, 30) else Date(y, 12, 31)
  }

  /** The (first, last) pair that `years_tolist` builds for year `y`. */
  function YearPeriod(y: int): (Date, Date) {
    (Date(y, 1, 1), YearEnd(y))
  }

  /** Python's `zip`: pairs up to the shorter of the two lists. */
  function Zip<A, B>(a: seq<A>, b: seq<B>): seq<(A, B)> {
    seq(if |a| <= |b| then |a| else |b|, i requires 0 <= i < |a| && i < |b| => (a[i], b[i]))
  }

  /** One (January 1, last kept day) pair per requested year, in the order
      requested, when every year's period parses. An empty list joins to "",
      which splits into one empty field that is no year. */
  method YearsToList(years: YearsArg) returns (r: Result<seq<(Date, Date)>>)
    ensures YearList(years) == [] ==> r == Err(InvalidLiteral(""))
    ensures YearList(years) != [] ==> (r.Ok? <==> forall y :: y in YearList(years) ==> TimestampYear(y))
    ensures r.Ok? ==> |r.value| == |YearList(years)|
    ensures r.Ok? ==> forall i :: 0 <= i < |r.value| ==> r.value[i] == YearPeriod(YearList(years)[i])
    ensures YearList(years) != [] && r.Err? ==>
      r.error.UnparsableDate? && r.error.year in YearList(years) && !TimestampYear(r.error.year)
    // The error is the one of the first year whose period does not parse.
    ensures YearList(years) != [] && r.Err? ==>
      exists k :: 0 <= k < |YearList(years)| &&
        (forall j :: 0 <= j < k ==> TimestampYear(YearList(years)[j])) &&
        YearError(YearList(years)[k]) == Some(r.error)
  {
    var dict := YearsToDict(years);
    var fields := Split(dict["years"]);
    FieldsAreYears(years, fields);
    r := PeriodsOfFields(fields);
    if r.Err? && YearList(years) != [] {
      var k :| 0 <= k < |fields| && (forall j :: 0 <= j < k ==> FieldError(fields[j]).None?) &&
        FieldError(fields[k]) == Some(r.error);
      assert YearError(YearList(years)[k]) == Some(r.error);
    }
  }

  /** The fields `years_tolist` loops over, one per requested year: each
      parses back to its year and fails exactly as that year does. */
  lemma FieldsAreYears(years: YearsArg, fields: seq<string>)
    requires fields == Split(YearsToDict(years)["years"])
    ensures YearList(years) == [] ==> fields == [""] && FieldError(fields[0]) == Some(InvalidLiteral(""))
    ensures YearList(years) != [] ==> |fields| == |YearList(years)|
    ensures YearList(years) != [] ==> forall k :: 0 <= k < |fields| ==>
      ParseInt(fields[k]) == Some(YearList(years)[k]) && FieldError(fields[k]) == YearError(YearList(years)[k])
  {
    YearsRoundTrip(years);
  }

  /** The loop of `years_tolist` over the comma-separated fields: a start and
      an end list, one entry per field, zipped at the end. Fails at the first
      field that is not an integer literal or whose dates do not parse. */
  method PeriodsOfFields(fields: seq<string>) returns (r: Result<seq<(Date, Date)>>)
    ensures r.Ok? <==> forall k :: 0 <= k < |fields| ==>
      ParseInt(fields[k]).Some? && TimestampYear(ParseInt(fields[k]).value)
    ensures r.Ok? ==> |r.value| == |fields|
    ensures r.Ok? ==> forall k :: 0 <= k < |fields| ==> r.value[k] == YearPeriod(ParseInt(fields[k]).value)
    ensures r.Err? ==>
      (r.error.InvalidLiteral? && r.error.text in fields && ParseInt(r.error.text).None?) ||
      (r.error.UnparsableDate? && !TimestampYear(r.error.year) &&
       exists k :: 0 <= k < |fields| && ParseInt(fields[k]) == Some(r.error.year))
    // The error is the one of the first field that fails.
    ensures r.Err? ==>
      exists k :: 0 <= k < |fields| &&
        (forall j :: 0 <= j < k ==> FieldError(fields[j]).None?) && FieldError(fields[k]) == Some(r.error)
  {
    var starts: seq<Date> := [];
    var ends: seq<Date> := [];
    var i := 0;
    while i < |fields|
      invariant 0 <= i <= |fields|
      invariant |starts| == i && |ends| == i
      invariant forall k :: 0 <= k < i ==> ParseInt(fields[k]).Some? && TimestampYear(ParseInt(fields[k]).value)
      invariant forall k :: 0 <= k < i ==> FieldError(fields[k]).None?
      invariant forall k :: 0 <= k < i ==>
        starts[k] == YearPeriod(ParseInt(fields[k]).value).0 && ends[k] == YearPeriod(ParseInt(fields[k]).value).1
    {
      var year := fields[i];
      var parsed := ParseInt(year);
      if parsed.None? {
        assert FieldError(year) == Some(InvalidLiteral(year));
        return Err(InvalidLiteral(year));
      }
      var y := parsed.value;
      if !Parses(Date(y, 1, 1)) {
        assert FieldError(year) == Some(UnparsableDate(y, 1, 1));
        return Err(UnparsableDate(y, 1, 1));
      }
      starts := starts + [Date(y, 1, 1)];
      if y % 4 == 0 && (y % 100 != 0 || y % 400 == 0) {
        if !Parses(Date(y, 12, 30)) {
          assert FieldError(year) == Some(UnparsableDate(y, 12, 30));
          return Err(UnparsableDate(y, 12, 30));
        }
        ends := ends + [Date(y, 12, 30)];
      } else {
        if !Parses(Date(y, 12, 31)) {
          assert FieldError(year) == Some(UnparsableDate(y, 12, 31));
          return Err(UnparsableDate(y, 12, 31));
        }
        ends := ends + [Date(y, 12, 31)];
      }
      i := i + 1;
    }
    r := Ok(Zip(starts, ends));
  }

  /** Daymet's missing day: December 31 of a leap year. */
  predicate Dropped(d: Date) {
    IsLeapYear(d.year) && d.month == 12 && d.day == 31
  }

  /** The per-year period: 365 days from January 1 to its last day, which are
      exactly the days of that year Daymet keeps. */
  lemma YearPeriodSpec(y: int)
    ensures Valid(YearPeriod(y).0) && Valid(YearPeriod(y).1)
    ensures YearPeriod(y).0.year == y && YearPeriod(y).1.year == y
    ensures |Days(YearPeriod(y).0, YearPeriod(y).1)| == 365
    ensures forall d :: d in Days(YearPeriod(y).0, YearPeriod(y).1) <==>
      Valid(d) && d.year == y && !Dropped(d)
  {
    var (first, last) := YearPeriod(y);
    DaysLength(first, last);
    DaysMembers(first, last);
  }

  /** The days of `ds` that Daymet has, order kept. */
  function KeptDays(ds: seq<Date>): (r: seq<Date>)
    ensures forall d :: d in r <==> d in ds && !Dropped(d)
    ensures StrictlySorted(ds) ==> StrictlySorted(r)
  {
    if ds == [] then []
    else
      var rest := KeptDays(ds[1..]);
      if Dropped(ds[0]) then rest
      else
        assert StrictlySorted(ds) ==> StrictlySorted([ds[0]] + rest) by {
          if StrictlySorted(ds) {
            ConsSorted(ds, rest);
          }
        }
        [ds[0]] + rest
  }

  /** The days of `ds` that fall in year `y`, order kept. */
  function OfYear(ds: seq<Date>, y: int): (r: seq<Date>)
    ensures forall d :: d in r <==> d in ds && d.year == y
    ensures StrictlySorted(ds) ==> StrictlySorted(r)
  {
    if ds == [] then []
    else
      var rest := OfYear(ds[1..], y);
      if ds[0].year != y then rest
      else
        assert StrictlySorted(ds) ==> StrictlySorted([ds[0]] + rest) by {
          if StrictlySorted(ds) {
            ConsSorted(ds, rest);
          }
        }
        [ds[0]] + rest
  }

  /** Putting the head of a sorted list before a sublist of its tail keeps
      the order. */
  lemma ConsSorted(ds: seq<Date>, rest: seq<Date>)
    requires ds != [] && StrictlySorted(ds)
    requires StrictlySorted(rest) && forall d :: d in rest ==> d in ds[1..]
    ensures StrictlySorted([ds[0]] + rest)
  {
    forall d | d in rest
      ensures Less(ds[0], d)
    {
      var k :| 0 <= k < |ds[1..]| && ds[1..][k] == d;
      assert ds[k + 1] == d;
    }
    SortedCons(ds[0], rest);
  }

  /** The year of every day, in order (pandas' `period.year`). */
  function YearsOf(ds: seq<Date>): seq<int> {
    seq(|ds|, i requires 0 <= i < |ds| => ds[i].year)
  }

  /** The distinct years of `ds` in order of first appearance (pandas'
      `unique()`). */
  function UniqueYears(ds: seq<Date>): (ys: seq<int>)
    ensures forall y :: y in ys ==> OfYear(ds, y) != []
  {
    var ys := Seqs.Distinct(YearsOf(ds));
    assert forall y :: y in ys ==> exists i :: 0 <= i < |ds| && ds[i].year == y && ds[i] in OfYear(ds, y);
    ys
  }

  /** One (first, last) pair per year of `ds`, in the order of `UniqueYears`. */
  function YearBounds(ds: seq<Date>): (ps: seq<(Date, Date)>)
    ensures |ps| == |UniqueYears(ds)|
  {
    var ys := UniqueYears(ds);
    seq(|ys|, i requires 0 <= i < |ys| =>
      var sel := OfYear(ds, ys[i]);
      (sel[0], sel[|sel| - 1]))
  }

  /** The year periods Daymet serves for the tuple `(start, end)`: the days of
      the range without leap-year December 31, grouped by year, each group
      reduced to its first and last day. */
  function DatesToList(dates: DatesArg): (r: Result<seq<(Date, Date)>>)
    ensures r.Ok? <==> DatesToDict(dates).Ok?
    ensures r.Err? ==> r.error == DatesToDict(dates).error
  {
    var dict :- DatesToDict(dates);
    Ok(YearBounds(KeptDays(Days(dict["start"], dict["end"]))))
  }

  predicate Increasing(ys: seq<int>) {
    forall i, j :: 0 <= i < j < |ys| ==> ys[i] < ys[j]
  }

  /** Dropping the duplicates of a non-decreasing sequence leaves a strictly
      increasing one. */
  lemma {:induction false} DistinctOfSorted(s: seq<int>)
    requires forall i, j :: 0 <= i < j < |s| ==> s[i] <= s[j]
    ensures Increasing(Seqs.Distinct(s))
  {
    if s != [] {
      var init := s[..|s| - 1];
      var last := s[|s| - 1];
      DistinctOfSorted(init);
      var r0 := Seqs.Distinct(init);
      assert s == init + [last];
      if last !in r0 {
        forall x | x in r0
          ensures x < last
        {
          var k :| 0 <= k < |init| && init[k] == x;
          assert s[k] == x;
        }
        var r := r0 + [last];
        assert Seqs.Distinct(s) == r;
        forall i, j | 0 <= i < j < |r|
          ensures r[i] < r[j]
        {
          assert r[i] == r0[i] && r0[i] in r0;
          if j < |r| - 1 {
            assert r[j] == r0[j];
          }
        }
      } else {
        assert Seqs.Distinct(s) == r0;
      }
    }
  }

  /** Each pair of the year bounds lies in one year, is ordered, and its ends
      are days of the list. */
  lemma YearBoundsPair(ds: seq<Date>, i: int)
    requires StrictlySorted(ds)
    requires 0 <= i < |YearBounds(ds)|
    ensures var p := YearBounds(ds)[i];
      p.0.year == UniqueYears(ds)[i] && p.1.year == UniqueYears(ds)[i] &&
      LessEq(p.0, p.1) && p.0 in ds && p.1 in ds
  {
    var ys := UniqueYears(ds);
    var sel := OfYear(ds, ys[i]);
    assert ys[i] in ys;
    assert sel[0] in sel && sel[|sel| - 1] in sel;
    if |sel| > 1 {
      assert Less(sel[0], sel[|sel| - 1]);
    }
  }

  /** The position of a day's year among the distinct years of the list. */
  lemma YearIndex(ds: seq<Date>, d: Date) returns (i: nat)
    requires d in ds
    ensures i < |UniqueYears(ds)| && UniqueYears(ds)[i] == d.year
  {
    var k :| 0 <= k < |ds| && ds[k] == d;
    var years := YearsOf(ds);
    assert years[k] == d.year;
    var ys := Seqs.Distinct(years);
    assert d.year in ys;
    i :| 0 <= i < |ys| && ys[i] == d.year;
  }

  /** In a sorted list, every element lies between the first and the last. */
  lemma SortedEnds(sel: seq<Date>, m: int)
    requires StrictlySorted(sel) && 0 <= m < |sel|
    ensures LessEq(sel[0], sel[m]) && LessEq(sel[m], sel[|sel| - 1])
  {
  }

  /** Every day of the list lies between the ends of its year's pair. */
  lemma YearBoundsCover(ds: seq<Date>, d: Date)
    requires StrictlySorted(ds)
    requires d in ds
    ensures Covered(d, YearBounds(ds))
  {
    var i := YearIndex(ds, d);
    var sel := OfYear(ds, d.year);
    assert d in sel;
    var m :| 0 <= m < |sel| && sel[m] == d;
    SortedEnds(sel, m);
    assert InPeriod(d, YearBounds(ds)[i]);
  }

  /** Facts about the year bounds of a chronologically ordered list of days:
      each pair lies in one year and is ordered, its ends come from the list,
      the years strictly increase, and every day of the list lies between the
      ends of its year's pair. */
  lemma YearBoundsSpec(ds: seq<Date>)
    requires StrictlySorted(ds)
    ensures var ps := YearBounds(ds);
      forall i :: 0 <= i < |ps| ==>
        ps[i].0.year == ps[i].1.year && LessEq(ps[i].0, ps[i].1) && ps[i].0 in ds && ps[i].1 in ds
    ensures var ps := YearBounds(ds);
      forall i, j :: 0 <= i < j < |ps| ==> ps[i].0.year < ps[j].0.year
    ensures forall d :: d in ds ==> Covered(d, YearBounds(ds))
  {
    var ps := YearBounds(ds);
    var ys := UniqueYears(ds);
    DistinctOfSorted(YearsOf(ds));
    assert Increasing(ys);
    forall i | 0 <= i < |ps|
      ensures ps[i].0.year == ys[i] && ps[i].1.year == ys[i]
      ensures LessEq(ps[i].0, ps[i].1) && ps[i].0 in ds && ps[i].1 in ds
    {
      YearBoundsPair(ds, i);
    }
    forall d | d in ds
      ensures Covered(d, ps)
    {
      YearBoundsCover(ds, d);
    }
  }

  /** `d` lies in year period `p`. */
  predicate InPeriod(d: Date, p: (Date, Date)) {
    p.0.year == d.year && LessEq(p.0, d) && LessEq(d, p.1)
  }

  /** A day of the range from `start` to `end` that Daymet has. */
  predicate KeptInRange(d: Date, start: Date, end: Date) {
    Valid(d) && LessEq(start, d) && LessEq(d, end) && !Dropped(d)
  }

  /** What `dates_tolist` promises of its pairs for the range from `start`
      to `end`: both ends of a pair are kept days of the range in the same
      year, first no later than last; the years strictly increase; and every
      kept day of the range lies within its year's pair. Together: one pair
      per year that has a kept day in the range. */
  ghost predicate DaymetPeriods(ps: seq<(Date, Date)>, start: Date, end: Date) {
    (forall i :: 0 <= i < |ps| ==>
       ps[i].0.year == ps[i].1.year && LessEq(ps[i].0, ps[i].1) &&
       KeptInRange(ps[i].0, start, end) && KeptInRange(ps[i].1, start, end)) &&
    (forall i, j :: 0 <= i < j < |ps| ==> ps[i].0.year < ps[j].0.year) &&
    (forall d {:trigger Covered(d, ps)} :: KeptInRange(d, start, end) ==> Covered(d, ps))
  }

  /** `d` lies in one of the periods `ps`. */
  predicate Covered(d: Date, ps: seq<(Date, Date)>) {
    exists i :: 0 <= i < |ps| && InPeriod(d, ps[i])
  }

  /** A well-formed request is accepted and answered with Daymet's periods
      of the range. */
  lemma DatesToListSpec(start: Date, end: Date)
    requires Parses(start) && Parses(end) && !Less(start, FirstDay)
    ensures DatesToList(TupleArg([start, end])).Ok?
    ensures DaymetPeriods(DatesToList(TupleArg([start, end])).value, start, end)
  {
    var ds := Days(start, end);
    DaysMembers(start, end);
    DaysSorted(start, end);
    var kept := KeptDays(ds);
    assert DatesToList(TupleArg([start, end])) == Ok(YearBounds(kept));
    YearBoundsSpec(kept);
    forall d | KeptInRange(d, start, end)
      ensures Covered(d, YearBounds(kept))
    {
      assert d in kept;
    }
  }

  /** The last day Daymet keeps in a year is kept and no kept day of that
      year comes after it. */
  lemma YearEndIsLastKept(y: int, d: Date)
    ensures Valid(YearEnd(y)) && YearEnd(y).year == y && !Dropped(YearEnd(y))
    ensures Valid(d) && d.year == y && !Dropped(d) ==> LessEq(d, YearEnd(y))
  {
  }

  /** The first two periods of a list with increasing years. Stated apart so
      that the indices are checked where `|ps| >= 2` is not yet refuted. */
  lemma FirstTwoYears(ps: seq<(Date, Date)>)
    requires forall i, j :: 0 <= i < j < |ps| ==> ps[i].0.year < ps[j].0.year
    ensures |ps| >= 2 ==> ps[0].0.year < ps[1].0.year && ps[1] in ps
  {
  }

  /** The only list of Daymet periods for a whole calendar year is that
      year's single period. */
  lemma FullYearPeriods(ps: seq<(Date, Date)>, y: int)
    requires DaymetPeriods(ps, Date(y, 1, 1), Date(y, 12, 31))
    ensures ps == [YearPeriod(y)]
  {
    var start, end := Date(y, 1, 1), Date(y, 12, 31);
    assert KeptInRange(start, start, end) && Covered(start, ps);
    var i :| 0 <= i < |ps| && InPeriod(start, ps[i]);
    FirstTwoYears(ps);
    assert |ps| == 1 && i == 0;
    var first, last := ps[0].0, ps[0].1;
    assert first == start;
    YearEndIsLastKept(y, last);
    assert KeptInRange(YearEnd(y), start, end) && Covered(YearEnd(y), ps);
    assert InPeriod(YearEnd(y), ps[0]);
    assert last == YearEnd(y);
    assert ps == [(first, last)];
  }

  /** For a year of the record, asking for the whole calendar year by dates
      gives the same single period as asking for it by year. */
  lemma FullYearAgrees(y: int)
    requires 1980 <= y <= 2261
    ensures DatesToList(TupleArg([Date(y, 1, 1), Date(y, 12, 31)])) == Ok([YearPeriod(y)])
  {
    DatesToListSpec(Date(y, 1, 1), Date(y, 12, 31));
    FullYearPeriods(DatesToList(TupleArg([Date(y, 1, 1), Date(y, 12, 31)])).value, y);
  }
}

=== FILE: pet_columns.dfy ===
/** The column bookkeeping of the point evapotranspiration computation
    (`pet_bycoords`): which columns it requires, which it adds and which it
    drops. The column values, and the FAO-56 arithmetic on them, are not
    modelled. */
module PetColumns {
  import opened Errors
  import opened Requirements
  import Seqs

  const VpColumn := "vp (Pa)"
  const DaylColumn := "dayl (s)"
  const TmeanColumn := "tmean (deg c)"
  const PetColumn := "pet (mm/day)"

  /** The (official, alternative) unit labels of the variables whose column
      names depend on `alt_unit`. */
  const UnitLabels: map<string, (string, string)> := map[
    "srad" := ("W/m2", "W/m^2"),
    "tmax" := ("degrees C", "deg c"),
    "tmin" := ("degrees C", "deg c")]

  /** Indexing the label pair with the flag: False picks the first label,
      True the second. */
  function Label(variable: string, altUnit: bool): string
    requires variable in UnitLabels
  {
    if altUnit then UnitLabels[variable].1 else UnitLabels[variable].0
  }

  /** A column name of the form "<variable> (<unit>)". */
  function ColumnName(variable: string, unit: string): string {
    variable + " (" + unit + ")"
  }

  /** The columns the computation reads, in the order they are checked. */
  function RequiredColumns(altUnit: bool): (reqs: seq<string>)
    ensures !altUnit ==> reqs == ["tmin (degrees C)", "tmax (degrees C)", "vp (Pa)", "srad (W/m2)", "dayl (s)"]
    ensures altUnit ==> reqs == ["tmin (deg c)", "tmax (deg c)", "vp (Pa)", "srad (W/m^2)", "dayl (s)"]
    ensures TmeanColumn !in reqs && PetColumn !in reqs
  {
    assert ColumnName("tmin", "degrees C") == "tmin (degrees C)";
    assert ColumnName("tmax", "degrees C") == "tmax (degrees C)";
    assert ColumnName("srad", "W/m2") == "srad (W/m2)";
    assert ColumnName("tmin", "deg c") == "tmin (deg c)";
    assert ColumnName("tmax", "deg c") == "tmax (deg c)";
    assert ColumnName("srad", "W/m^2") == "srad (W/m^2)";
    [ColumnName("tmin", Label("tmin", altUnit)), ColumnName("tmax", Label("tmax", altUnit)),
     VpColumn, ColumnName("srad", Label("srad", altUnit)), DaylColumn]
  }

  /** The columns after `df[name] = ...`: an existing column keeps its place,
      a new one is appended. */
  function WithColumn(cols: seq<string>, name: string): (r: seq<string>)
    ensures forall x :: x in r <==> x in cols || x == name
  {
    if name in cols then cols else cols + [name]
  }

  /** The columns of the frame `pet_bycoords` returns for an input frame with
      columns `cols`. */
  function PetOutputColumns(cols: seq<string>): seq<string> {
    Seqs.Without(WithColumn(WithColumn(cols, TmeanColumn), PetColumn), TmeanColumn)
  }

  /** The output keeps the input's columns in their order, minus the mean
      temperature, and ends with the PET column unless it was already there. */
  lemma PetOutputSpec(cols: seq<string>)
    ensures PetOutputColumns(cols) == Seqs.Without(cols, TmeanColumn) + (if PetColumn in cols then [] else [PetColumn])
    ensures forall x :: x in PetOutputColumns(cols) <==> (x in cols || x == PetColumn) && x != TmeanColumn
  {
    var withT := WithColumn(cols, TmeanColumn);
    Seqs.WithoutConcat(cols, [TmeanColumn], TmeanColumn);
    assert Seqs.Without(withT, TmeanColumn) == Seqs.Without(cols, TmeanColumn);
    if PetColumn !in withT {
      Seqs.WithoutConcat(withT, [PetColumn], TmeanColumn);
    }
  }

  /** Once the requirement check has passed, every required column is still in
      the output. */
  lemma RequiredColumnsKept(cols: seq<string>, altUnit: bool)
    requires CheckRequirements(RequiredColumns(altUnit), cols).Pass?
    ensures forall c :: c in RequiredColumns(altUnit) ==> c in PetOutputColumns(cols)
  {
    PetOutputSpec(cols);
  }

  /** A table of climate records, reduced to its column names. */
  class Frame {
    var columns: seq<string>

    constructor (columns: seq<string>)
      ensures this.columns == columns
    {
      this.columns := columns;
    }

    /** `df[name] = ...`: adds the column unless it exists; its values are
        not modelled. */
    method Assign(name: string)
      modifies this
      ensures columns == WithColumn(old(columns), name)
    {
      if name !in columns {
        columns := columns + [name];
      }
    }

    /** `df.drop(columns=name)`: a new frame without that column; this frame
        is left as it is. pandas raises for a column that is not there. */
    method Drop(name: string) returns (f: Frame)
      requires name in columns
      ensures fresh(f) && f.columns == Seqs.Without(columns, name)
    {
      f := new Frame(Seqs.Without(columns, name));
    }
  }

  /** `pet_bycoords(df, coords, crs, alt_unit)`, its column bookkeeping only.
      `elevation` is what the elevation service answered, and `formula` how
      the arithmetic after it went (it fails on a table whose index is not a
      datetime index, or whose values are not numbers): a failure of either
      propagates unchanged. The input frame is changed in place (it gains the
      mean-temperature and PET columns) and the result is a copy of it
      without the mean temperature. */
  method PetByCoords(df: Frame, altUnit: bool, elevation: Outcome, formula: Outcome) returns (r: Result<Frame>)
    modifies df
    ensures var missing := Missing(RequiredColumns(altUnit), old(df.columns));
      missing != [] ==> r == Err(MissingItems(missing)) && df.columns == old(df.columns)
    ensures CheckRequirements(RequiredColumns(altUnit), old(df.columns)).Pass? && elevation.Fail? ==>
      r == Err(elevation.error) && df.columns == WithColumn(old(df.columns), TmeanColumn)
    ensures CheckRequirements(RequiredColumns(altUnit), old(df.columns)).Pass? && elevation.Pass? && formula.Fail? ==>
      r == Err(formula.error) && df.columns == WithColumn(old(df.columns), TmeanColumn)
    ensures CheckRequirements(RequiredColumns(altUnit), old(df.columns)).Pass? && elevation.Pass? && formula.Pass? ==>
      r.Ok? && fresh(r.value) &&
      df.columns == WithColumn(WithColumn(old(df.columns), TmeanColumn), PetColumn) &&
      r.value.columns == PetOutputColumns(old(df.columns))
  {
    var reqs := RequiredColumns(altUnit);
    :- CheckRequirements(reqs, df.columns);
    df.Assign(TmeanColumn);
    :- elevation;
    df.Assign(VpColumn);  // rescaled to kPa
    :- formula;
    df.Assign(PetColumn);
    df.Assign(VpColumn);  // rescaled back to Pa
    var out := df.Drop(TmeanColumn);
    return Ok(out);
  }
}

=== FILE: requirements.dfy ===
/** The pre-flight check that a container carries every variable a
    computation needs (`_check_requirements`). */
module Requirements {
  import opened Errors

  /** The required names absent from `cols`, in the order they are required
      and with repetitions kept, as the list comprehension builds them. */
  function Missing(reqs: seq<string>, cols: seq<string>): (m: seq<string>)
    ensures forall x :: x in m <==> x in reqs && x !in cols
    ensures |m| <= |reqs|
  {
    if reqs == [] then []
    else (if reqs[0] in cols then [] else [reqs[0]]) + Missing(reqs[1..], cols)
  }

  /** Passes iff every required name is present; otherwise fails with a
      MissingItems error carrying the `Missing` list: exactly the absent
      names, in required order, repetitions kept. */
  function CheckRequirements(reqs: seq<string>, cols: seq<string>): (r: Outcome)
    ensures r.Pass? <==> forall x :: x in reqs ==> x in cols
    ensures r.Fail? ==> r.error.MissingItems? && r.error.items != []
    ensures r.Fail? ==> forall x :: x in r.error.items <==> x in reqs && x !in cols
    ensures r.Fail? ==> r.error.items == Missing(reqs, cols)
  {
    var missing := Missing(reqs, cols);
    if missing != [] then
      assert missing[0] in missing;
      Fail(MissingItems(missing))
    else Pass
  }

  /** Checking two lists of requirements one after the other reports the
      missing names of the first list before those of the second: the result
      is the requirement list filtered in place, order kept. */
  lemma {:induction false} MissingConcat(a: seq<string>, b: seq<string>, cols: seq<string>)
    ensures Missing(a + b, cols) == Missing(a, cols) + Missing(b, cols)
  {
    if a == [] {
      assert a + b == b;
    } else {
      assert (a + b)[1..] == a[1..] + b;
      MissingConcat(a[1..], b, cols);
    }
  }

  /** A required name is reported exactly as often as it is required when it
      is absent, and never when it is present. */
  lemma {:induction false} MissingCount(reqs: seq<string>, cols: seq<string>, x: string)
    ensures multiset(Missing(reqs, cols))[x] == if x in cols then 0 else multiset(reqs)[x]
  {
    if reqs != [] {
      assert reqs == [reqs[0]] + reqs[1..];
      MissingCount(reqs[1..], cols, x);
    }
  }

  /** When nothing required is present, every requirement is reported, in
      order. */
  lemma {:induction false} NothingPresent(reqs: seq<string>, cols: seq<string>)
    requires forall x :: x in reqs ==> x !in cols
    ensures Missing(reqs, cols) == reqs
  {
    if reqs != [] {
      NothingPresent(reqs[1..], cols);
    }
  }
}

=== FILE: seqs.dfy ===
/** Small sequence operations shared by the rest of the model. */
module Seqs {

  predicate NoDuplicates<T(==)>(s: seq<T>) {
    forall i, j :: 0 <= i < j < |s| ==> s[i] != s[j]
  }

  /** `s` with every occurrence of `x` removed, the rest in order. */
  function Without<T(==, !new)>(s: seq<T>, x: T): (r: seq<T>)
    ensures forall y :: y in r <==> y in s && y != x
    ensures |r| <= |s|
  {
    if s == [] then []
    else (if s[0] == x then [] else [s[0]]) + Without(s[1..], x)
  }

  lemma {:induction false} WithoutConcat<T(!new)>(a: seq<T>, b: seq<T>, x: T)
    ensures Without(a + b, x) == Without(a, x) + Without(b, x)
  {
    if a == [] {
      assert a + b == b;
    } else {
      assert (a + b)[1..] == a[1..] + b;
      WithoutConcat(a[1..], b, x);
    }
  }

  /** The first occurrence of every element of `s`, in order of appearance. */
  function Distinct<T(==, !new)>(s: seq<T>): (r: seq<T>)
    ensures forall y :: y in r <==> y in s
    ensures NoDuplicates(r)
  {
    if s == [] then []
    else
      var init := Distinct(s[..|s| - 1]);
      var last := s[|s| - 1];
      assert s == s[..|s| - 1] + [last];
      if last in init then init else init + [last]
  }
}
